=== FILE: README.md ===
# js-flash: the `Flash` registry, stacking rule and config override in Dafny

js-flash shows toast notifications. Each `new Flash(message, type, config)`
does the following:

- appends the item to a process-wide list (`Flash.list`);
- resolves its config as a shallow override of the shared defaults;
- schedules an auto-dismiss `close` when `closeTimeout > 0`;
- places the element with `fixPosition`.

`fixPosition` puts an element at the base offset plus `height + gap` for every
earlier listed item with the same `position`. It writes that value to the `top`
or the `bottom` edge, whichever the part of `position` before the dash names.

`close` does the following:

- marks the item closed;
- splices the element at the item's index out of the list;
- re-places every item that is left.

The model has four modules:

- `Wrappers`: `Option`.
- `Config` (`config.dfy`):
  - the item config, the base config and their default values;
  - `Object.assign` as a key-by-key override (`Assign`, `AssignBase`).
- `Stack` (`stack.dfy`):
  - items;
  - `indexOf` (`IndexOf`);
  - the functional stacking rule (`StackOffset`);
  - the loop of `fixPosition` (`FixPosition`), proved equal to `StackOffset`;
  - the choice of edge (`YAlign`, `Place`);
  - how the offset reacts to insertions and removals.
- `Registry` (`registry.dfy`):
  - the static state (list, base config, item defaults, next identity);
  - the constructor (`Create`), `setBaseConfig` and `setItemConfig`;
  - `Array.prototype.splice(start, 1)` (`SpliceOne`);
  - `close`, as the function `CloseState` and as the method `Close` with its `forEach` loop.

Validity of a state (`Registry.Valid`) has three parts:

- identities are distinct and already handed out;
- every listed item is open;
- every listed item has exactly one edge written.

`Registry.Placed` holds when every listed item shows the offset that
`fixPosition` computes for it.

`close` is modelled as written, with no guard. The item may no longer be
listed, for example after a click followed by its pending timer. In that case
`indexOf` returns -1, and `splice(-1, 1)` removes the last listed item (see
Findings).

## Model

| member | source | states |
|---|---|---|
| Config.Assign | src/index.ts:68-69 | Every key the partial config supplies takes the supplied value. Every other key keeps the default's value. |
| Config.AssignBase | src/index.ts:126-128 | The same shallow override on the base config. `types` is replaced as a whole, not merged. |
| Config.AssignNothingIsIdentity | src/index.ts:61-69 | An item built with the default `{}` gets exactly the shared defaults. |
| Config.AssignIdempotent | src/index.ts:130-132 | Applying the same partial config twice gives the same result as applying it once. So repeating `setItemConfig` with the same argument changes nothing. |
| Config.EveryCategoryStyled | src/interface.ts:10 | A fact about the type: every style table, the default one and any that `setBaseConfig` installs, has a style for each of the four categories, as `Record<FlashType, ItemStyle>` declares. The model does not perform the colour lookup itself, which is DOM styling. |
| Registry.AutoDismiss | src/index.ts:117-120 | A close is scheduled exactly when `closeTimeout > 0`. The value passed to `setTimeout` is then `closeTimeout`. A zero or negative timeout never schedules one. |
| Registry.Create | src/index.ts:61-124 | The constructor appends one new item, with a fresh identity, after every existing item. Its config is the defaults overridden by the partial config. The defaults and base config are unchanged. A timer is scheduled exactly when `closeTimeout > 0`, and click-to-close follows `closeByClick`. The new item shows its stacking offset on exactly one edge. It is found at index `\|list\|`. No earlier item moves, and validity is preserved. |
| Registry.NewItemPlaced | src/index.ts:122 | Placing the appended item writes its own offset, taken in the list that holds it, to its anchor edge. Placement and validity of the other items are preserved. |
| Registry.AppendKeepsPlacement | src/index.ts:62 | Appending a placed item leaves every earlier item at the offset `fixPosition` gives it. |
| Registry.InitialIsValid | src/index.ts:9-50 | The initial empty registry with the default configs is valid. |
| Registry.SetBaseConfig | src/index.ts:126-128 | The base config is overridden key by key. The list, item defaults and identities are untouched, so nothing is re-placed, and a valid registry stays valid. |
| Registry.SetItemConfig | src/index.ts:130-132 | The item defaults are overridden key by key. Existing items keep their own configs, and a valid registry stays valid. |
| Stack.StackOffset | src/index.ts:170-176 | The definition of the stacking rule: the base offset plus `height + gap` of each same-position item before `self`. `Stack.FixPosition` proves the loop computes it. `OffsetAtLeastBase`, `LaterItemStacksFurther`, `SameSlotsSameOffset` and the insert/remove lemmas characterise it. |
| Stack.IndexOf | src/index.ts:165 | The result is the first index holding the identity. It is -1 exactly when no listed item has that identity. |
| Stack.Predecessors | src/index.ts:172-173 | The `for` loop visits exactly the longest prefix that does not hold `self`. It stops at `self` when `self` is listed. |
| Stack.FixPosition | src/index.ts:170-176 | The loop's value equals the stacking rule: the base offset plus `height + gap` of each same-position item before `self`. |
| Stack.AppendedFoundLast | src/index.ts:62 | After the push, `indexOf` (line 165) finds an item that was not listed before at the last index. |
| Stack.AppendedOffset | src/index.ts:170-176 | The offset of an item appended to a list that does not hold it is the base offset plus the extent of all same-position items of the list. |
| Stack.AppendKeepsOffset | src/index.ts:172-173 | Appending an item does not change the offset of an item already listed. |
| Stack.OffsetAtLeastBase | src/index.ts:171-175 | With a non-negative gap, every offset is at least `baseConfig.offset`. |
| Stack.LaterItemStacksFurther | src/index.ts:171-175 | Among same-position items, a later one sits at least the earlier one's height plus gap further from the edge. |
| Stack.SameSlotsSameOffset | src/index.ts:172-175 | The offset depends only on the identities and positions in the list, not on styles already written. |
| Stack.InsertAfterKeepsOffset | src/index.ts:173 | Inserting an item after `self` leaves the offset of `self` unchanged. |
| Stack.InsertOtherAnchorKeepsOffset | src/index.ts:174 | Inserting anywhere an item with another position leaves the offset of `self` unchanged. |
| Stack.RemoveAfterKeepsOffset | src/index.ts:173 | Removing an item after `self` leaves the offset of `self` unchanged. |
| Stack.RemoveOtherAnchorKeepsOffset | src/index.ts:174 | Removing an item with another position leaves the offset of `self` unchanged. |
| Stack.YAlign | src/index.ts:178 | The definition of `position.split('-')[0]`. `Stack.BeforeDash` and `Stack.YAlignIsVerticalEdge` characterise it. |
| Stack.Place | src/index.ts:178-182 | The definition of the edge write at the end of `fixPosition`. `Stack.PlaceWritesAnchorEdge` characterises it. |
| Stack.BeforeDash | src/index.ts:178 | `split('-')[0]` is the longest dash-free prefix. |
| Stack.YAlignIsVerticalEdge | src/index.ts:178-182 | For each of the six positions, the part before the dash is exactly `top` or exactly `bottom`. |
| Stack.PlaceWritesAnchorEdge | src/index.ts:178-182 | The offset is written to `top` for top positions and to `bottom` for bottom positions. The other edge is left as it was. |
| Registry.SpliceOne | src/index.ts:166 | `splice(start, 1)` behaves as follows: an index in range removes that element; -1 removes the last element; a start past the end, or an empty list, removes nothing; a start below `-length` removes the first element. |
| Registry.CloseState | src/index.ts:158-168 | The definition of `close`. The item comes back closed. The configs and identity counter are untouched. A non-empty list always loses exactly one element, listed item or not. `Close`, `CloseListedItem`, `CloseUnlistedDropsLast` and `CloseKeepsValid` characterise it further. |
| Registry.Close | src/index.ts:158-168 | The `forEach` loop places each survivor against the list as it stands, with earlier survivors already re-placed. The result is the same as re-placing every survivor against the final list. |
| Registry.RepositionPlaces | src/index.ts:167 | Re-placing keeps the items and their order. Every survivor then shows its new offset on exactly one edge. |
| Registry.CloseListedItem | src/index.ts:158-166 | Closing a listed item returns it marked closed. It removes one element. The others stay in their order, changed only in their styles. |
| Registry.CloseListedKeepsOthers | src/index.ts:165-166 | Closing a listed item leaves every other listed identity in the list. |
| Registry.CloseListedKeepsValid | src/index.ts:158-167 | After closing a listed item, its identity is gone, every survivor shows the offset `fixPosition` gives it, and the state stays valid. |
| Registry.CloseKeepsUnaffectedOffsets | src/index.ts:167 | Re-placing after a close does not move survivors that were before the closed item or in another stack. |
| Registry.CloseUnlistedDropsLast | src/index.ts:165-166 | Closing an item that is no longer listed still removes an element. That element is the last item, which is open and is a different item. |
| Registry.CloseUnlistedKeepsValid | src/index.ts:165-167 | After such a close, the state is still valid and every survivor shows the offset `fixPosition` gives it, so a further close, such as the dropped item's own pending timer, acts on a valid registry again. |
| Registry.CloseKeepsValid | src/index.ts:158-168 | Every `close`, of a listed or an unlisted item, keeps a valid registry valid, with every survivor at its `fixPosition` offset. |
| Registry.DoubleCloseDropsLiveItem | src/index.ts:158-166 | Closing a listed item that is not last, then closing it again, shrinks the list by two. The open last item disappears. |
| Registry.DoubleCloseOfPairEmpties | src/index.ts:158-166 | In a registry of two items, closing the first item twice empties the registry. |
| Registry.DefaultConfigClosesTwice | src/index.ts:112-120 | With the default config, an item both closes on click and schedules its own close after 5000 ms. So one item can receive two `close` calls. |
| Registry.GuardedClose | src/index.ts:158-168 | The corrected `close`. It returns the item closed. On an already closed item it leaves the state as it was. On an open item it removes exactly one element. `GuardedCloseIdempotent` characterises it further. |
| Registry.GuardedCloseIdempotent | src/index.ts:158-168 | With a guard on `closed`, closing twice is the same as closing once. The state stays valid, and no item other than the closed one leaves the registry. |

## Left out

- The DOM is not modelled: element creation, classes, colours, icons, `innerHTML`, cursor, margin, and the left/right offsets of `top`/`bottom` items (src/index.ts:71-115). Only the two edge properties that `fixPosition` writes are kept.
- The 300 ms fade-and-remove timer and the `whenClosed` promise are not modelled (src/index.ts:65, 160-163). They are asynchronous side effects with no effect on the list; `closed` is a flag.
- `el.clientHeight` is not modelled. Layout is outside the program, so each item's rendered height is the parameter `height`.
- Timers and click handlers are not run. The constructor returns the delay it would pass to `setTimeout` and whether a click closes the item. A later `close` from either is modelled by calling `CloseState` again on the record the caller holds.
- The SVG decode is not modelled (src/index.ts:97-103). `decodeURIComponent` throws `URIError` on a malformed `%` escape in the icon text, whether from an icon installed through `setBaseConfig` or from the raw SVG the build's loader exports (tsup.config.ts:24-34). That throw, like the one for a missing category below, comes after the push at line 62 and before the click listener, the timer and `fixPosition` (lines 113, 119, 122): it would leave in the list an unplaced item that nothing closes, adding `0 + gap` to every later item with the same position. The model assumes the icon decodes.
- The getters (src/index.ts:134-156) are not modelled. `element` and `itemConfig` return live references: a caller that writes through them, for example to `itemConfig.position`, changes later stacking. Mutation through those references is not modelled; the model's item configs change only through the constructor.
- JavaScript object identity is represented by an `Id` drawn from `nextId`. `indexOf` compares identities.
- Registry.AutoDismiss: the value is the argument passed to `setTimeout`, not the delay a browser applies. Browsers convert that argument to a 32-bit signed integer, so a `closeTimeout` from 2^31 ms up to 2^32 ms wraps to a negative delay and fires at once, and larger values wrap modulo 2^32. That conversion is not modelled; the decision `closeTimeout > 0` (line 118) does not depend on it.
- JavaScript numbers are modelled as mathematical integers, so fractional pixels, `NaN` and floating-point rounding are not modelled.
- A partial config that holds an explicit `undefined` value is not modelled. `Object.assign` would copy that `undefined`; the model treats every key as either present with a value or absent.
- `ItemStyle`'s `loadingColor` and `button` fields (src/interface.ts) are not modelled. The default styles do not supply them, and the core never reads them.
- tsup.config.ts, vite.config.ts and src/types.d.ts are not modelled. They are build configuration and module declarations with no behaviour.
- `pauseOnHover`, `loading` and the `DeepPartial` type are declared (src/interface.ts:1-3, 18-19) but nothing in src/index.ts uses them, so the model keeps them only as config keys: no pause on hover, no loading state, no deep merge.
- A `types` table that lacks a category is not modelled. The declared type `Record<FlashType, ItemStyle>` (src/interface.ts:10) rules it out, and `StyleTable` follows that type. An untyped caller could still pass one; the constructor would then throw at the style lookup (src/index.ts:79) after the push at line 62, leaving in the list an unplaced item that nothing closes.

## Findings

| source | as written | input that shows it | evidently intended | confidence | as-written member | corrected member |
|---|---|---|---|---|---|---|
| src/index.ts:158-166 | `close` has no guard. On a second call, `indexOf` returns -1 and `splice(-1, 1)` removes the last listed item. | Default config (`closeByClick` true, `closeTimeout` 5000), items A then B. Click A, then A's still-pending timer calls `close` on A again. B is spliced out although it is open. | A second `close` on an already closed item changes nothing. | high, not executed | Registry.DoubleCloseDropsLiveItem | Registry.GuardedClose | src/index.ts:158-168 | The corrected `close`. It returns the item closed. On an already closed item it leaves the state as it was. On an open item it removes exactly one element. `GuardedCloseIdempotent` characterises it further. |
| Registry.GuardedCloseIdempotent |

=== FILE: config.dfy ===
/**
  The configuration objects of a flash notification: the per-item config, the
  shared base config, their default values, and the shallow `Object.assign`
  override that the constructor, `setBaseConfig` and `setItemConfig` apply.
 */
module Config {
  import opened Wrappers

  /** The four notification categories; they only select colours and icon. */
  datatype FlashType = Success | Error | Warning | Info

  datatype Direction = Ltr | Rtl

  /** The six anchors an item can be stacked against. */
  datatype Position = Top | Bottom | TopLeft | TopRight | BottomLeft | BottomRight

  /** The string value the source stores for each anchor. */
  function PositionName(p: Position): string {
    match p
    case Top => "top"
    case Bottom => "bottom"
    case TopLeft => "top-left"
    case TopRight => "top-right"
    case BottomLeft => "bottom-left"
    case BottomRight => "bottom-right"
  }

  /** An action button; the click handler is an opaque callback handle. */
  datatype Action = Action(text: string, handler: nat)

  /** The style of one category: icon asset and colours. */
  datatype ItemStyle = ItemStyle(icon: string, color: string, backgroundColor: string, borderColor: string)

  /**
    The effective configuration of one item. Keys that the shared default
    object does not define (pauseOnHover, loading, fontFamily, action) are
    optional: `None` is a key that is absent from the object.
   */
  datatype ItemConfig = ItemConfig(
    icon: bool,
    animation: bool,
    closeByClick: bool,
    closeTimeout: int,
    pauseOnHover: Option<bool>,
    loading: Option<bool>,
    direction: Direction,
    position: Position,
    borderRadius: int,
    fontFamily: Option<string>,
    action: Option<Action>)

  /** `Partial<ItemConfig>`: every key may be left out. */
  datatype PartialItemConfig = PartialItemConfig(
    icon: Option<bool>,
    animation: Option<bool>,
    closeByClick: Option<bool>,
    closeTimeout: Option<int>,
    pauseOnHover: Option<bool>,
    loading: Option<bool>,
    direction: Option<Direction>,
    position: Option<Position>,
    borderRadius: Option<int>,
    fontFamily: Option<string>,
    action: Option<Action>)

  /** The `{}` a caller passes when it overrides nothing. */
  const NoItemOverrides: PartialItemConfig :=
    PartialItemConfig(None, None, None, None, None, None, None, None, None, None, None)

  /** The built-in style of each category. */
  const DefaultStyles: map<FlashType, ItemStyle> := map[
    Success := ItemStyle("icons/success.svg", "#4CAF50", "#E8F5E9", "#C8E6C9"),
    Error := ItemStyle("icons/error.svg", "#F44336", "#FFEBEE", "#FFCDD2"),
    Warning := ItemStyle("icons/warning.svg", "#BD8F04", "#FFF8E1", "#FFDC74"),
    Info := ItemStyle("icons/info.svg", "#2196F3", "#E3F2FD", "#BBDEFB")]

  /**
    `Record<FlashType, ItemStyle>`: a table with a style for each of the four
    categories. The constraint names the four keys; `EveryCategoryStyled`
    states the same fact for every category.
   */
  type StyleTable = m: map<FlashType, ItemStyle> | Success in m && Error in m && Warning in m && Info in m
    witness DefaultStyles

  /** A style table has an entry for every category. */
  lemma EveryCategoryStyled(m: StyleTable)
    ensures forall t: FlashType :: t in m
  {
    forall t: FlashType ensures t in m {
      match t
      case Success =>
      case Error =>
      case Warning =>
      case Info =>
    }
  }

  /** Process-wide settings: distance from the viewport edge, gap between stacked items, category styles. */
  datatype BaseConfig = BaseConfig(offset: int, gap: int, types: StyleTable)

  /** `Partial<BaseConfig>`: a supplied `types` is a whole table. */
  datatype PartialBaseConfig = PartialBaseConfig(offset: Option<int>, gap: Option<int>, types: Option<StyleTable>)

  /** The initial shared item defaults. */
  const DefaultItemConfig: ItemConfig :=
    ItemConfig(true, true, true, 5000, None, None, Ltr, TopLeft, 12, None, None)

  /** The initial shared base config: 20 px from the edge, 10 px between items. */
  const DefaultBaseConfig: BaseConfig := BaseConfig(20, 10, DefaultStyles)

  // A key-by-key view of the configuration objects, so that the override
  // rule can be stated once for every key.

  datatype ItemKey =
    | IconKey | AnimationKey | CloseByClickKey | CloseTimeoutKey | PauseOnHoverKey | LoadingKey
    | DirectionKey | PositionKey | BorderRadiusKey | FontFamilyKey | ActionKey

  datatype BaseKey = OffsetKey | GapKey | TypesKey

  /** The value stored under a key; `Absent` is a key the object does not have. */
  datatype Value =
    | Absent
    | Flag(flag: bool)
    | Number(number: int)
    | Text(text: string)
    | Dir(dir: Direction)
    | Anchor(anchor: Position)
    | Act(act: Action)
    | Styles(styles: StyleTable)

  function OptFlag(b: Option<bool>): Value {
    match b
    case Some(v) => Flag(v)
    case None => Absent
  }

  function OptText(t: Option<string>): Value {
    match t
    case Some(v) => Text(v)
    case None => Absent
  }

  function OptAct(a: Option<Action>): Value {
    match a
    case Some(v) => Act(v)
    case None => Absent
  }

  /** The value of key `k` in an item config object. */
  function ItemField(c: ItemConfig, k: ItemKey): Value {
    match k
    case IconKey => Flag(c.icon)
    case AnimationKey => Flag(c.animation)
    case CloseByClickKey => Flag(c.closeByClick)
    case CloseTimeoutKey => Number(c.closeTimeout)
    case PauseOnHoverKey => OptFlag(c.pauseOnHover)
    case LoadingKey => OptFlag(c.loading)
    case DirectionKey => Dir(c.direction)
    case PositionKey => Anchor(c.position)
    case BorderRadiusKey => Number(c.borderRadius)
    case FontFamilyKey => OptText(c.fontFamily)
    case ActionKey => OptAct(c.action)
  }

  /** The value a partial item config supplies for key `k`, if it has that key. */
  function ItemOverride(p: PartialItemConfig, k: ItemKey): Option<Value> {
    match k
    case IconKey => if p.icon.Some? then Some(Flag(p.icon.value)) else None
    case AnimationKey => if p.animation.Some? then Some(Flag(p.animation.value)) else None
    case CloseByClickKey => if p.closeByClick.Some? then Some(Flag(p.closeByClick.value)) else None
    case CloseTimeoutKey => if p.closeTimeout.Some? then Some(Number(p.closeTimeout.value)) else None
    case PauseOnHoverKey => if p.pauseOnHover.Some? then Some(Flag(p.pauseOnHover.value)) else None
    case LoadingKey => if p.loading.Some? then Some(Flag(p.loading.value)) else None
    case DirectionKey => if p.direction.Some? then Some(Dir(p.direction.value)) else None
    case PositionKey => if p.position.Some? then Some(Anchor(p.position.value)) else None
    case BorderRadiusKey => if p.borderRadius.Some? then Some(Number(p.borderRadius.value)) else None
    case FontFamilyKey => if p.fontFamily.Some? then Some(Text(p.fontFamily.value)) else None
    case ActionKey => if p.action.Some? then Some(Act(p.action.value)) else None
  }

  function BaseField(c: BaseConfig, k: BaseKey): Value {
    match k
    case OffsetKey => Number(c.offset)
    case GapKey => Number(c.gap)
    case TypesKey => Styles(c.types)
  }

  function BaseOverride(p: PartialBaseConfig, k: BaseKey): Option<Value> {
    match k
    case OffsetKey => if p.offset.Some? then Some(Number(p.offset.value)) else None
    case GapKey => if p.gap.Some? then Some(Number(p.gap.value)) else None
    case TypesKey => if p.types.Some? then Some(Styles(p.types.value)) else None
  }

  function Pick<T>(over: Option<T>, keep: T): T {
    if over.Some? then over.value else keep
  }

  function PickOpt<T>(over: Option<T>, keep: Option<T>): Option<T> {
    if over.Some? then over else keep
  }

  /**
    `Object.assign(target, src)` on an item config: a shallow copy of every
    key `src` has over the one in `target`.
   */
  function Assign(target: ItemConfig, src: PartialItemConfig): (r: ItemConfig)
    ensures forall k :: ItemOverride(src, k).Some? ==> ItemField(r, k) == ItemOverride(src, k).value
    ensures forall k :: ItemOverride(src, k).None? ==> ItemField(r, k) == ItemField(target, k)
  {
    ItemConfig(
      Pick(src.icon, target.icon),
      Pick(src.animation, target.animation),
      Pick(src.closeByClick, target.closeByClick),
      Pick(src.closeTimeout, target.closeTimeout),
      PickOpt(src.pauseOnHover, target.pauseOnHover),
      PickOpt(src.loading, target.loading),
      Pick(src.direction, target.direction),
      Pick(src.position, target.position),
      Pick(src.borderRadius, target.borderRadius),
      PickOpt(src.fontFamily, target.fontFamily),
      PickOpt(src.action, target.action))
  }

  /** `Object.assign(target, src)` on the base config; `types` is replaced as a whole. */
  function AssignBase(target: BaseConfig, src: PartialBaseConfig): (r: BaseConfig)
    ensures forall k :: BaseOverride(src, k).Some? ==> BaseField(r, k) == BaseOverride(src, k).value
    ensures forall k :: BaseOverride(src, k).None? ==> BaseField(r, k) == BaseField(target, k)
  {
    BaseConfig(Pick(src.offset, target.offset), Pick(src.gap, target.gap), Pick(src.types, target.types))
  }

  /** Two item configs with the same value under every key are the same config. */
  lemma ItemFieldsDetermineConfig(a: ItemConfig, b: ItemConfig)
    requires forall k :: ItemField(a, k) == ItemField(b, k)
    ensures a == b
  {
    assert ItemField(a, IconKey) == ItemField(b, IconKey);
    assert ItemField(a, AnimationKey) == ItemField(b, AnimationKey);
    assert ItemField(a, CloseByClickKey) == ItemField(b, CloseByClickKey);
    assert ItemField(a, CloseTimeoutKey) == ItemField(b, CloseTimeoutKey);
    assert ItemField(a, PauseOnHoverKey) == ItemField(b, PauseOnHoverKey);
    assert ItemField(a, LoadingKey) == ItemField(b, LoadingKey);
    assert ItemField(a, DirectionKey) == ItemField(b, DirectionKey);
    assert ItemField(a, PositionKey) == ItemField(b, PositionKey);
    assert ItemField(a, BorderRadiusKey) == ItemField(b, BorderRadiusKey);
    assert ItemField(a, FontFamilyKey) == ItemField(b, FontFamilyKey);
    assert ItemField(a, ActionKey) == ItemField(b, ActionKey);
  }

  /** Constructing an item with the default `{}` config yields exactly the shared defaults. */
  lemma AssignNothingIsIdentity(target: ItemConfig)
    ensures Assign(target, NoItemOverrides) == target
  {
    forall k ensures ItemOverride(NoItemOverrides, k).None? {
    }
    ItemFieldsDetermineConfig(Assign(target, NoItemOverrides), target);
  }

  /**
    Applying the same partial config twice is the same as applying it once;
    so calling `setItemConfig` again with the same argument changes nothing.
   */
  lemma AssignIdempotent(target: ItemConfig, src: PartialItemConfig)
    ensures Assign(Assign(target, src), src) == Assign(target, src)
  {
    var once := Assign(target, src);
    ItemFieldsDetermineConfig(Assign(once, src), once);
  }
}

=== FILE: registry.dfy ===
/**
  The process-wide registry of `Flash` items: the constructor appends an item
  and places it, `setBaseConfig` and `setItemConfig` override the shared
  configs, and `close` marks an item closed, splices it out of the list and
  re-places every item that is left.
 */
module Registry {
  import opened Wrappers
  import opened Config
  import opened Stack

  /** The static state of the `Flash` class; `nextId` hands out fresh identities. */
  datatype State = State(list: seq<Item>, base: BaseConfig, defaults: ItemConfig, nextId: nat)

  const Initial: State := State([], DefaultBaseConfig, DefaultItemConfig, 0)

  /** Every listed identity has already been handed out, so `nextId` is fresh. */
  predicate Issued(s: State) {
    forall i :: 0 <= i < |s.list| ==> s.list[i].id < s.nextId
  }

  /**
    What every reachable state satisfies (`InitialIsValid`, `Create`,
    `SetBaseConfig`, `SetItemConfig`, `CloseKeepsValid`): identities in the
    list are distinct and already handed out, and every listed item is open
    and has exactly one edge written.
   */
  predicate Valid(s: State) {
    && UniqueIds(s.list)
    && Issued(s)
    && forall i :: 0 <= i < |s.list| ==> !s.list[i].closed && Settled(s.list[i])
  }

  /** The `i`-th listed item shows the offset `fixPosition` computes for it with these heights. */
  predicate PlacedAt(list: seq<Item>, i: int, base: BaseConfig, height: Id -> nat) {
    0 <= i < |list| && Edge(list[i].style, list[i].config.position) == Some(StackOffset(list, list[i], base, height))
  }

  /** Every listed item shows the offset `fixPosition` computes for it. */
  predicate Placed(list: seq<Item>, base: BaseConfig, height: Id -> nat) {
    forall i {:trigger PlacedAt(list, i, base, height)} :: 0 <= i < |list| ==> PlacedAt(list, i, base, height)
  }

  /** `a` holds the items of `b` in the same order; only their styles may differ. */
  predicate Restyled(a: seq<Item>, b: seq<Item>) {
    && |a| == |b|
    && forall i :: 0 <= i < |a| ==> a[i] == b[i].(style := a[i].style)
  }

  lemma InitialIsValid()
    ensures Valid(Initial)
  {
  }

  /** The delay of the auto-dismiss `setTimeout`, if the constructor schedules one. */
  function AutoDismiss(c: ItemConfig): (r: Option<int>)
    ensures r.Some? <==> c.closeTimeout > 0
    ensures r.Some? ==> r.value == c.closeTimeout
  {
    if c.closeTimeout > 0 then Some(c.closeTimeout) else None
  }

  /**
    What the constructor leaves behind: the new state, the new item, the delay
    of the scheduled close, and whether a click on the element closes it.
   */
  datatype Created = Created(state: State, item: Item, timer: Option<int>, onClick: bool)

  /**
    `new Flash(message, type, config)`: append the item, resolve its config
    against a copy of the defaults, schedule the auto-dismiss, and place it.
    When the state's identities are all handed out, the new item is the last
    one (so `Stack.AppendedOffset` gives its offset), no earlier item moves,
    and the state stays valid.
   */
  function Create(s: State, message: string, kind: FlashType, partial: PartialItemConfig, height: Id -> nat): (r: Created)
    ensures r.state.list == s.list + [r.item]
    ensures r.item.id == s.nextId && r.state.nextId == s.nextId + 1
    ensures r.item.message == message && r.item.kind == kind && !r.item.closed
    ensures r.item.config == Assign(s.defaults, partial)
    ensures r.state.defaults == s.defaults && r.state.base == s.base
    ensures r.timer.Some? <==> r.item.config.closeTimeout > 0
    ensures r.timer.Some? ==> r.timer.value == r.item.config.closeTimeout
    ensures r.onClick == r.item.config.closeByClick
    ensures Settled(r.item)
    ensures Edge(r.item.style, r.item.config.position) == Some(StackOffset(r.state.list, r.item, s.base, height))
    ensures Issued(s) ==> IndexOf(r.state.list, r.item.id) == |s.list|
    ensures Placed(s.list, s.base, height) ==> Placed(r.state.list, s.base, height)
    ensures Valid(s) ==> Valid(r.state)
  {
    var config := Assign(s.defaults, partial);
    var added := Item(s.nextId, message, kind, config, false, Unplaced);
    var item := added.(style := Place(Unplaced, config.position, StackOffset(s.list + [added], added, s.base, height)));
    NewItemPlaced(s, added, item, height);
    Created(State(s.list + [item], s.base, s.defaults, s.nextId + 1), item, AutoDismiss(config), config.closeByClick)
  }

  /** The facts about the item the constructor builds and places. */
  lemma NewItemPlaced(s: State, added: Item, item: Item, height: Id -> nat)
    requires added.id == s.nextId && !added.closed && added.style == Unplaced
    requires item == added.(style := Place(Unplaced, added.config.position, StackOffset(s.list + [added], added, s.base, height)))
    ensures Settled(item)
    ensures Edge(item.style, item.config.position) == Some(StackOffset(s.list + [item], item, s.base, height))
    ensures Issued(s) ==> IndexOf(s.list + [item], item.id) == |s.list|
    ensures Placed(s.list, s.base, height) ==> Placed(s.list + [item], s.base, height)
    ensures Valid(s) ==> Valid(State(s.list + [item], s.base, s.defaults, s.nextId + 1))
  {
    var offset := StackOffset(s.list + [added], added, s.base, height);
    assert Settled(item) && Edge(item.style, item.config.position) == Some(StackOffset(s.list + [item], item, s.base, height)) by {
      PlaceWritesAnchorEdge(Unplaced, added.config.position, offset);
      SameSlotsAppend(s.list, added, item);
      SameSlotsSameOffset(s.list + [added], s.list + [item], added, item, s.base, height);
    }
    assert Issued(s) ==> IndexOf(s.list + [item], item.id) == |s.list| by {
      AppendFreshFoundLast(s, item);
    }
    assert Valid(s) ==> Valid(State(s.list + [item], s.base, s.defaults, s.nextId + 1)) by {
      AppendFreshValid(s, item);
    }
    AppendKeepsPlacement(s.list, item, s.base, height);
  }

  /** An item with a fresh identity appended to the list is found last. */
  lemma AppendFreshFoundLast(s: State, item: Item)
    requires item.id == s.nextId
    ensures Issued(s) ==> IndexOf(s.list + [item], item.id) == |s.list|
  {
    if Issued(s) {
      AppendedFoundLast(s.list, item);
    }
  }

  /** Appending an open, settled item with the next identity keeps the state valid. */
  lemma AppendFreshValid(s: State, item: Item)
    requires item.id == s.nextId && !item.closed && Settled(item)
    ensures Valid(s) ==> Valid(State(s.list + [item], s.base, s.defaults, s.nextId + 1))
  {
    var list := s.list + [item];
    assert forall j :: 0 <= j < |s.list| ==> list[j] == s.list[j];
    assert list[|s.list|] == item;
  }

  /** Appending a placed item does not move any item already shown. */
  lemma AppendKeepsPlacement(list: seq<Item>, item: Item, base: BaseConfig, height: Id -> nat)
    requires Edge(item.style, item.config.position) == Some(StackOffset(list + [item], item, base, height))
    ensures Placed(list, base, height) ==> Placed(list + [item], base, height)
  {
    if Placed(list, base, height) {
      var longer := list + [item];
      forall i | 0 <= i < |longer|
        ensures PlacedAt(longer, i, base, height)
      {
        if i < |list| {
          assert PlacedAt(list, i, base, height);
          assert longer[i] == list[i];
          AppendKeepsOffset(list, list[i], item, base, height);
        } else {
          assert longer[i] == item;
        }
      }
    }
  }

  /** `Flash.setBaseConfig(config)`: a shallow override of the shared base config; nothing is re-placed. */
  function SetBaseConfig(s: State, partial: PartialBaseConfig): (r: State)
    ensures r.list == s.list && r.defaults == s.defaults && r.nextId == s.nextId
    ensures forall k :: BaseOverride(partial, k).Some? ==> BaseField(r.base, k) == BaseOverride(partial, k).value
    ensures forall k :: BaseOverride(partial, k).None? ==> BaseField(r.base, k) == BaseField(s.base, k)
    ensures Valid(s) ==> Valid(r)
  {
    s.(base := AssignBase(s.base, partial))
  }

  /** `Flash.setItemConfig(config)`: a shallow override of the shared item defaults; existing items keep their config. */
  function SetItemConfig(s: State, partial: PartialItemConfig): (r: State)
    ensures r.list == s.list && r.base == s.base && r.nextId == s.nextId
    ensures forall k :: ItemOverride(partial, k).Some? ==> ItemField(r.defaults, k) == ItemOverride(partial, k).value
    ensures forall k :: ItemOverride(partial, k).None? ==> ItemField(r.defaults, k) == ItemField(s.defaults, k)
    ensures Valid(s) ==> Valid(r)
  {
    s.(defaults := Assign(s.defaults, partial))
  }

  /**
    `Array.prototype.splice(start, 1)`: a negative start counts from the end
    and is clamped at 0, a start past the end removes nothing.
   */
  function SpliceOne(list: seq<Item>, start: int): (r: seq<Item>)
    ensures 0 <= start < |list| ==> r == list[..start] + list[start + 1..]
    ensures start == -1 && |list| > 0 ==> r == list[..|list| - 1]
    ensures start >= |list| || |list| == 0 ==> r == list
    ensures start < -|list| && |list| > 0 ==> r == list[1..]
  {
    var actual := if start < 0 then (if |list| + start < 0 then 0 else |list| + start)
                  else (if start > |list| then |list| else start);
    if actual < |list| then list[..actual] + list[actual + 1..] else list
  }

  /** `x` with the offset `fixPosition` computes for it against `list` written to its anchor edge. */
  function PlaceAgainst(list: seq<Item>, x: Item, base: BaseConfig, height: Id -> nat): Item {
    x.(style := Place(x.style, x.config.position, StackOffset(list, x, base, height)))
  }

  /** Every item re-placed by `fixPosition` against the list as it stands. */
  function Reposition(list: seq<Item>, base: BaseConfig, height: Id -> nat): (r: seq<Item>)
    ensures |r| == |list|
  {
    seq(|list|, i requires 0 <= i < |list| => PlaceAgainst(list, list[i], base, height))
  }

  /** What `close` leaves behind: the new state and the closed item. */
  datatype Closed = Closed(state: State, item: Item)

  /**
    `close()`: mark the item closed, splice out the element at its index (the
    last one when the item is no longer listed), and re-place the rest. There
    is no guard against closing twice.
   */
  function CloseState(s: State, self: Item, height: Id -> nat): (r: Closed)
    ensures r.item == self.(closed := true)
    ensures r.state.base == s.base && r.state.defaults == s.defaults && r.state.nextId == s.nextId
    ensures |r.state.list| == if |s.list| == 0 then 0 else |s.list| - 1
  {
    var rest := SpliceOne(s.list, IndexOf(s.list, self.id));
    Closed(s.(list := Reposition(rest, s.base, height)), self.(closed := true))
  }

  /**
    The body of `close`, with its `forEach` loop: each survivor in turn is
    placed by `fixPosition` against the list as it stands, earlier survivors
    already re-placed.
   */
  method Close(s: State, self: Item, height: Id -> nat) returns (r: Closed)
    ensures r == CloseState(s, self, height)
  {
    var index := IndexOf(s.list, self.id);
    var rest := SpliceOne(s.list, index);
    var done: seq<Item> := [];
    var i := 0;
    while i < |rest|
      invariant 0 <= i <= |rest|
      invariant done == Reposition(rest, s.base, height)[..i]
    {
      var v := FixPosition(done + rest[i..], rest[i], s.base, height);
      RepositionStep(rest, done, i, s.base, height, v);
      done := done + [rest[i].(style := Place(rest[i].style, rest[i].config.position, v))];
      i := i + 1;
    }
    WholePrefix(Reposition(rest, s.base, height));
    r := Closed(s.(list := done), self.(closed := true));
  }

  /**
    One step of the `forEach`: placing the next survivor against the list in
    which the earlier survivors are already re-placed gives the offset it has
    in the list of survivors.
   */
  lemma RepositionStep(rest: seq<Item>, done: seq<Item>, i: nat, base: BaseConfig, height: Id -> nat, v: int)
    requires i < |rest|
    requires done == Reposition(rest, base, height)[..i]
    requires v == StackOffset(done + rest[i..], rest[i], base, height)
    ensures done + [rest[i].(style := Place(rest[i].style, rest[i].config.position, v))]
              == Reposition(rest, base, height)[..i + 1]
  {
    var target := Reposition(rest, base, height);
    RepositionRestyles(rest, base, height, target);
    SameSlotsSplice(target, rest, i);
    SameSlotsSameOffset(done + rest[i..], rest, rest[i], rest[i], base, height);
    assert target[i] == rest[i].(style := Place(rest[i].style, rest[i].config.position, v));
    TakeOneMore(target, i);
  }

  /** Re-placing keeps the items and their order, puts each at its offset, and keeps one edge written. */
  lemma RepositionPlaces(list: seq<Item>, base: BaseConfig, height: Id -> nat, out: seq<Item>)
    requires forall i :: 0 <= i < |list| ==> Settled(list[i])
    requires out == Reposition(list, base, height)
    ensures Restyled(out, list)
    ensures Placed(out, base, height)
    ensures forall i :: 0 <= i < |out| ==> Settled(out[i])
  {
    assert SameSlots(out, list);
    forall i | 0 <= i < |out|
      ensures Edge(out[i].style, out[i].config.position) == Some(StackOffset(out, out[i], base, height))
      ensures Settled(out[i])
    {
      var v := StackOffset(list, list[i], base, height);
      assert out[i] == list[i].(style := Place(list[i].style, list[i].config.position, v));
      PlaceWritesAnchorEdge(list[i].style, list[i].config.position, v);
      SameSlotsSameOffset(out, list, out[i], list[i], base, height);
    }
  }

  /** Splicing one element out of a list of settled items leaves settled items. */
  lemma SpliceKeepsSettled(list: seq<Item>, k: nat, rest: seq<Item>)
    requires forall i :: 0 <= i < |list| ==> Settled(list[i])
    requires k < |list|
    requires rest == list[..k] + list[k + 1..]
    ensures forall i :: 0 <= i < |rest| ==> Settled(rest[i])
  {
    forall i | 0 <= i < |rest| ensures Settled(rest[i]) {
      assert rest[i] == list[if i < k then i else i + 1];
    }
  }

  /** What `close` leaves when the item is listed: the others, spliced together and re-placed. */
  lemma CloseSplices(s: State, self: Item, height: Id -> nat, r: Closed)
    requires 0 <= IndexOf(s.list, self.id)
    requires r == CloseState(s, self, height)
    ensures r.item == self.(closed := true)
    ensures r.state == s.(list := Reposition(s.list[..IndexOf(s.list, self.id)] + s.list[IndexOf(s.list, self.id) + 1..], s.base, height))
  {
  }

  /**
    Closing a listed item marks it closed and removes exactly that item,
    keeping the others in their order with only their styles changed.
   */
  lemma CloseListedItem(s: State, self: Item, height: Id -> nat, r: Closed)
    requires 0 <= IndexOf(s.list, self.id)
    requires r == CloseState(s, self, height)
    ensures r.item == self.(closed := true)
    ensures |r.state.list| == |s.list| - 1
    ensures Restyled(r.state.list, s.list[..IndexOf(s.list, self.id)] + s.list[IndexOf(s.list, self.id) + 1..])
    ensures forall j :: 0 <= j < |r.state.list| ==> r.state.list[j].id == s.list[if j < IndexOf(s.list, self.id) then j else j + 1].id
  {
    CloseSplices(s, self, height, r);
    SurvivorsRestyled(s.list, IndexOf(s.list, self.id), s.base, height, r.state.list);
  }

  /** Closing a listed item leaves every other listed identity listed. */
  lemma CloseListedKeepsOthers(s: State, self: Item, height: Id -> nat, r: Closed)
    requires 0 <= IndexOf(s.list, self.id)
    requires r == CloseState(s, self, height)
    ensures forall i :: 0 <= i < |s.list| && s.list[i].id != self.id ==> 0 <= IndexOf(r.state.list, s.list[i].id)
  {
    var k := IndexOf(s.list, self.id);
    CloseSplices(s, self, height, r);
    SurvivorsRestyled(s.list, k, s.base, height, r.state.list);
    SurvivorsListed(s.list, k, self.id, r.state.list);
  }

  /** Closing a listed item re-places every survivor, removes its identity, and keeps the state valid. */
  lemma CloseListedKeepsValid(s: State, self: Item, height: Id -> nat, r: Closed)
    requires Valid(s)
    requires 0 <= IndexOf(s.list, self.id)
    requires r == CloseState(s, self, height)
    ensures Placed(r.state.list, s.base, height)
    ensures Valid(r.state)
    ensures IndexOf(r.state.list, self.id) == -1
  {
    CloseSplices(s, self, height, r);
    SurvivorsValid(s, IndexOf(s.list, self.id), height, r.state.list);
  }

  /**
    Closing a listed item does not move survivors above it or in another
    stack: their written offset stays what it was.
   */
  lemma CloseKeepsUnaffectedOffsets(s: State, self: Item, height: Id -> nat, r: Closed)
    requires Valid(s)
    requires Placed(s.list, s.base, height)
    requires 0 <= IndexOf(s.list, self.id)
    requires r == CloseState(s, self, height)
    ensures var k := IndexOf(s.list, self.id);
            forall j :: 0 <= j < |r.state.list| && (j < k || r.state.list[j].config.position != s.list[k].config.position) ==>
              Edge(r.state.list[j].style, r.state.list[j].config.position)
                == Edge(s.list[if j < k then j else j + 1].style, r.state.list[j].config.position)
  {
    CloseSplices(s, self, height, r);
    SurvivorsKeepOffsets(s, IndexOf(s.list, self.id), height, r.state.list);
  }

  /** Re-placing changes styles only: identities and positions stay in their slots. */
  lemma RepositionRestyles(list: seq<Item>, base: BaseConfig, height: Id -> nat, out: seq<Item>)
    requires out == Reposition(list, base, height)
    ensures SameSlots(out, list)
    ensures Restyled(out, list)
  {
  }

  /** The others of the `k`-th item, spliced together and re-placed, keep their order and all but their styles. */
  lemma SurvivorsRestyled(list: seq<Item>, k: nat, base: BaseConfig, height: Id -> nat, out: seq<Item>)
    requires k < |list|
    requires out == Reposition(list[..k] + list[k + 1..], base, height)
    ensures |out| == |list| - 1
    ensures Restyled(out, list[..k] + list[k + 1..])
    ensures forall j :: 0 <= j < |out| ==> out[j] == list[if j < k then j else j + 1].(style := out[j].style)
    ensures forall j :: 0 <= j < |out| ==> out[j].id == list[if j < k then j else j + 1].id
  {
    RepositionRestyles(list[..k] + list[k + 1..], base, height, out);
    RestyledShift(list, k, out);
  }

  /** A restyled copy of the list without its `k`-th item, read index by index. */
  lemma RestyledShift(list: seq<Item>, k: nat, out: seq<Item>)
    requires k < |list|
    requires Restyled(out, list[..k] + list[k + 1..])
    ensures |out| == |list| - 1
    ensures forall j :: 0 <= j < |out| ==> out[j] == list[if j < k then j else j + 1].(style := out[j].style)
    ensures forall j :: 0 <= j < |out| ==> out[j].id == list[if j < k then j else j + 1].id
  {
    var rest := list[..k] + list[k + 1..];
    forall j | 0 <= j < |out| ensures out[j] == list[if j < k then j else j + 1].(style := out[j].style) {
      assert rest[j] == list[if j < k then j else j + 1];
    }
  }

  /** The others of the `k`-th item, spliced together and re-placed, each show their new offset on one edge. */
  lemma SurvivorsPlaced(list: seq<Item>, k: nat, base: BaseConfig, height: Id -> nat, out: seq<Item>)
    requires forall i :: 0 <= i < |list| ==> Settled(list[i])
    requires k < |list|
    requires out == Reposition(list[..k] + list[k + 1..], base, height)
    ensures Placed(out, base, height)
    ensures forall i :: 0 <= i < |out| ==> Settled(out[i])
  {
    var rest := list[..k] + list[k + 1..];
    SpliceKeepsSettled(list, k, rest);
    RepositionPlaces(rest, base, height, out);
  }

  /** A valid registry without its `k`-th item, restyled and settled, is valid and no longer holds that identity. */
  lemma ShiftedValid(s: State, k: nat, out: seq<Item>)
    requires Valid(s)
    requires k < |s.list|
    requires |out| == |s.list| - 1
    requires forall j :: 0 <= j < |out| ==> out[j] == s.list[if j < k then j else j + 1].(style := out[j].style)
    requires forall j :: 0 <= j < |out| ==> Settled(out[j])
    ensures Valid(s.(list := out))
    ensures IndexOf(out, s.list[k].id) == -1
  {
    forall j | 0 <= j < |out| ensures out[j].id < s.nextId && !out[j].closed && out[j].id != s.list[k].id {
      assert out[j].id == s.list[if j < k then j else j + 1].id;
    }
    forall i, j | 0 <= i < j < |out| ensures out[i].id != out[j].id {
      assert out[i].id == s.list[if i < k then i else i + 1].id;
      assert out[j].id == s.list[if j < k then j else j + 1].id;
    }
  }

  /** The others of the `k`-th item, spliced together and re-placed, form a valid registry without it. */
  lemma SurvivorsValid(s: State, k: nat, height: Id -> nat, out: seq<Item>)
    requires Valid(s)
    requires k < |s.list|
    requires out == Reposition(s.list[..k] + s.list[k + 1..], s.base, height)
    ensures Placed(out, s.base, height)
    ensures Valid(s.(list := out))
    ensures IndexOf(out, s.list[k].id) == -1
  {
    SurvivorsRestyled(s.list, k, s.base, height, out);
    SurvivorsPlaced(s.list, k, s.base, height, out);
    ShiftedValid(s, k, out);
  }

  /** Every item listed before the close except the closed one is still listed after it. */
  lemma SurvivorsListed(list: seq<Item>, k: nat, id: Id, out: seq<Item>)
    requires k < |list| && list[k].id == id
    requires |out| == |list| - 1
    requires forall j :: 0 <= j < |out| ==> out[j].id == list[if j < k then j else j + 1].id
    ensures forall i :: 0 <= i < |list| && list[i].id != id ==> 0 <= IndexOf(out, list[i].id)
  {
    forall i | 0 <= i < |list| && list[i].id != id
      ensures 0 <= IndexOf(out, list[i].id)
    {
      var j := if i < k then i else i - 1;
      assert out[j].id == list[i].id;
    }
  }

  /** The survivors of `CloseKeepsUnaffectedOffsets`, given the re-placed list. */
  lemma SurvivorsKeepOffsets(s: State, k: nat, height: Id -> nat, out: seq<Item>)
    requires Valid(s)
    requires Placed(s.list, s.base, height)
    requires k < |s.list|
    requires out == Reposition(s.list[..k] + s.list[k + 1..], s.base, height)
    ensures forall j :: 0 <= j < |out| && (j < k || out[j].config.position != s.list[k].config.position) ==>
              Edge(out[j].style, out[j].config.position) == Edge(s.list[if j < k then j else j + 1].style, out[j].config.position)
  {
    var rest := s.list[..k] + s.list[k + 1..];
    SpliceKeepsSettled(s.list, k, rest);
    RepositionPlaces(rest, s.base, height, out);
    forall j | 0 <= j < |out| && (j < k || out[j].config.position != s.list[k].config.position)
      ensures Edge(out[j].style, out[j].config.position) == Edge(s.list[if j < k then j else j + 1].style, out[j].config.position)
    {
      SurvivorKeepsOffset(s, k, height, rest, out, j);
    }
  }

  /** One survivor of `CloseKeepsUnaffectedOffsets`. */
  lemma SurvivorKeepsOffset(s: State, k: nat, height: Id -> nat, rest: seq<Item>, out: seq<Item>, j: nat)
    requires UniqueIds(s.list)
    requires Placed(s.list, s.base, height)
    requires k < |s.list|
    requires rest == s.list[..k] + s.list[k + 1..]
    requires Restyled(out, rest) && Placed(out, s.base, height)
    requires j < |out|
    requires j < k || out[j].config.position != s.list[k].config.position
    ensures Edge(out[j].style, out[j].config.position) == Edge(s.list[if j < k then j else j + 1].style, out[j].config.position)
  {
    var i := if j < k then j else j + 1;
    var x := s.list[i];
    assert rest[j] == x;
    assert PlacedAt(out, j, s.base, height);
    assert PlacedAt(s.list, i, s.base, height);
    assert SameSlots(out, rest);
    assert IndexOf(s.list, x.id) == i;
    SameSlotsSameOffset(out, rest, out[j], x, s.base, height);
    if j < k {
      RemoveAfterKeepsOffset(s.list, x, k, s.base, height);
    } else {
      RemoveOtherAnchorKeepsOffset(s.list, x, k, s.base, height);
    }
  }

  /**
    Closing an item that is no longer listed still removes an element: the
    last item, which is open and was never closed.
   */
  lemma CloseUnlistedDropsLast(s: State, self: Item, height: Id -> nat, r: Closed)
    requires Valid(s)
    requires IndexOf(s.list, self.id) == -1
    requires |s.list| > 0
    requires r == CloseState(s, self, height)
    ensures !s.list[|s.list| - 1].closed
    ensures s.list[|s.list| - 1].id != self.id
    ensures Restyled(r.state.list, s.list[..|s.list| - 1])
    ensures forall j :: 0 <= j < |r.state.list| ==> r.state.list[j].id != s.list[|s.list| - 1].id
  {
    var n := |s.list|;
    var rest := s.list[..n - 1];
    var out := r.state.list;
    assert Restyled(out, rest) by {
      assert SpliceOne(s.list, -1) == rest;
      RepositionPlaces(rest, s.base, height, out);
    }
    forall j | 0 <= j < |out| ensures out[j].id != s.list[n - 1].id {
      assert out[j].id == rest[j].id == s.list[j].id;
    }
  }

  /**
    Closing an item that is no longer listed keeps the registry valid and
    placed: the last item is spliced out like any listed one would be.
   */
  lemma CloseUnlistedKeepsValid(s: State, self: Item, height: Id -> nat, r: Closed)
    requires Valid(s)
    requires IndexOf(s.list, self.id) == -1
    requires |s.list| > 0
    requires r == CloseState(s, self, height)
    ensures Placed(r.state.list, s.base, height)
    ensures Valid(r.state)
  {
    var n := |s.list|;
    assert SpliceOne(s.list, -1) == s.list[..n - 1] + s.list[n - 1 + 1..];
    assert r.state == s.(list := r.state.list);
    SurvivorsValid(s, n - 1, height, r.state.list);
  }

  /**
    `close` keeps every valid registry valid and placed, whether or not the
    item is still listed; with `Create`, `SetBaseConfig` and `SetItemConfig`
    this makes `Valid` hold of every state the program can reach.
   */
  lemma CloseKeepsValid(s: State, self: Item, height: Id -> nat, r: Closed)
    requires Valid(s)
    requires r == CloseState(s, self, height)
    ensures Placed(r.state.list, s.base, height)
    ensures Valid(r.state)
  {
    if 0 <= IndexOf(s.list, self.id) {
      CloseListedKeepsValid(s, self, height, r);
    } else if |s.list| == 0 {
      assert r.state.list == [];
    } else {
      CloseUnlistedKeepsValid(s, self, height, r);
    }
  }

  /**
    Closing a listed item twice, as a click followed by its still-pending
    auto-dismiss timer does, also drops the last item of the registry,
    although that item is open.
   */
  lemma DoubleCloseDropsLiveItem(s: State, k: nat, height: Id -> nat, first: Closed, second: Closed)
    requires Valid(s)
    requires k < |s.list| - 1
    requires first == CloseState(s, s.list[k], height)
    requires second == CloseState(first.state, first.item, height)
    ensures |second.state.list| == |s.list| - 2
    ensures !s.list[|s.list| - 1].closed
    ensures s.list[|s.list| - 1].id != s.list[k].id
    ensures forall j :: 0 <= j < |second.state.list| ==> second.state.list[j].id != s.list[|s.list| - 1].id
  {
    CloseBeforeLast(s, k, height, first);
    CloseUnlistedDropsLast(first.state, first.item, height, second);
  }

  /** Closing an item other than the last keeps the last item last. */
  lemma CloseBeforeLast(s: State, k: nat, height: Id -> nat, first: Closed)
    requires Valid(s)
    requires k < |s.list| - 1
    requires first == CloseState(s, s.list[k], height)
    ensures Valid(first.state) && first.item.id == s.list[k].id
    ensures |first.state.list| == |s.list| - 1
    ensures IndexOf(first.state.list, s.list[k].id) == -1
    ensures first.state.list[|s.list| - 2].id == s.list[|s.list| - 1].id
  {
    assert IndexOf(s.list, s.list[k].id) == k;
    CloseListedItem(s, s.list[k], height, first);
    CloseListedKeepsValid(s, s.list[k], height, first);
  }

  /** In a registry of two, closing the first item twice leaves nothing. */
  lemma DoubleCloseOfPairEmpties(s: State, height: Id -> nat, first: Closed, second: Closed)
    requires Valid(s) && |s.list| == 2
    requires first == CloseState(s, s.list[0], height)
    requires second == CloseState(first.state, first.item, height)
    ensures second.state.list == []
  {
    DoubleCloseDropsLiveItem(s, 0, height, first, second);
  }

  /**
    With the initial defaults an item both closes on click and schedules its
    own close after five seconds, so a click followed by the timer calls
    `close` twice on the same item.
   */
  lemma DefaultConfigClosesTwice(s: State, message: string, kind: FlashType, height: Id -> nat, r: Created)
    requires s.defaults == DefaultItemConfig
    requires r == Create(s, message, kind, NoItemOverrides, height)
    ensures r.onClick && r.timer == Some(5000)
  {
    AssignNothingIsIdentity(DefaultItemConfig);
  }

  /**
    `close` with the guard it evidently intends: a second call on a closed
    item does nothing.
   */
  function GuardedClose(s: State, self: Item, height: Id -> nat): (r: Closed)
    ensures r.item.closed && r.item.id == self.id
    ensures self.closed ==> r.state == s
    ensures !self.closed && |s.list| > 0 ==> |r.state.list| == |s.list| - 1
  {
    if self.closed then Closed(s, self) else CloseState(s, self, height)
  }

  /** The caller holds the current record of `self`: closed exactly when it is no longer listed. */
  predicate Current(s: State, self: Item) {
    self.closed <==> IndexOf(s.list, self.id) == -1
  }

  /**
    With the guard, closing twice is closing once, and no item other than
    `self` leaves the registry.
   */
  lemma GuardedCloseIdempotent(s: State, self: Item, height: Id -> nat, once: Closed)
    requires Valid(s)
    requires Current(s, self)
    requires once == GuardedClose(s, self, height)
    ensures once.item.closed
    ensures Valid(once.state)
    ensures Current(once.state, once.item)
    ensures GuardedClose(once.state, once.item, height) == once
    ensures forall i :: 0 <= i < |s.list| && s.list[i].id != self.id ==> 0 <= IndexOf(once.state.list, s.list[i].id)
  {
    if !self.closed {
      assert Valid(once.state) && IndexOf(once.state.list, self.id) == -1 by {
        CloseListedKeepsValid(s, self, height, once);
      }
      assert forall i :: 0 <= i < |s.list| && s.list[i].id != self.id ==> 0 <= IndexOf(once.state.list, s.list[i].id) by {
        CloseListedKeepsOthers(s, self, height, once);
      }
    }
  }

}

=== FILE: stack.dfy ===
/**
  The stacking rule of `Flash.fixPosition`: an item's distance from its
  viewport edge is the base offset plus, for every earlier item in the
  registry with the same position, that item's rendered height and the gap.
  The rendered height of an element is outside the model: it is the
  parameter `height`, a function from item identity to pixels.
 */
module Stack {
  import opened Wrappers
  import opened Config

  /** The identity of a `Flash` object. */
  type Id = nat

  /** The two edge properties `fixPosition` writes on an element; `None` is never written. */
  datatype Style = Style(top: Option<int>, bottom: Option<int>)

  const Unplaced: Style := Style(None, None)

  /** One live or closed notification. */
  datatype Item = Item(id: Id, message: string, kind: FlashType, config: ItemConfig, closed: bool, style: Style)

  predicate UniqueIds(list: seq<Item>) {
    forall i, j :: 0 <= i < j < |list| ==> list[i].id != list[j].id
  }

  /** `list.indexOf(item)`: the first index holding that identity, or -1. */
  function IndexOf(list: seq<Item>, id: Id): (r: int)
    ensures -1 <= r < |list|
    ensures 0 <= r ==> list[r].id == id && forall j :: 0 <= j < r ==> list[j].id != id
    ensures r == -1 <==> forall j :: 0 <= j < |list| ==> list[j].id != id
  {
    IndexFrom(list, id, 0)
  }

  /** The search of `indexOf` from position `from` on. */
  function IndexFrom(list: seq<Item>, id: Id, from: nat): (r: int)
    requires from <= |list|
    ensures r == -1 || from <= r < |list|
    ensures 0 <= r ==> list[r].id == id && forall j :: from <= j < r ==> list[j].id != id
    ensures r == -1 <==> forall j :: from <= j < |list| ==> list[j].id != id
    decreases |list| - from
  {
    if from == |list| then -1
    else if list[from].id == id then from
    else IndexFrom(list, id, from + 1)
  }

  /**
    The items the loop of `fixPosition` visits before it reaches `self`: the
    longest prefix of the list that does not hold `self`.
   */
  function Predecessors(list: seq<Item>, self: Item): (r: seq<Item>)
    ensures r <= list
    ensures forall j :: 0 <= j < |r| ==> r[j].id != self.id
    ensures |r| < |list| ==> list[|r|].id == self.id
  {
    var k := IndexOf(list, self.id);
    if k < 0 then list else list[..k]
  }

  /** The items of `xs` stacked at position `pos`, in list order. */
  function SameAnchor(xs: seq<Item>, pos: Position): (r: seq<Item>)
    ensures |r| <= |xs|
    decreases |xs|
  {
    if |xs| == 0 then []
    else
      var init := SameAnchor(xs[..|xs| - 1], pos);
      if xs[|xs| - 1].config.position == pos then init + [xs[|xs| - 1]] else init
  }

  /** The room a sequence of stacked items takes: each item's height plus one gap. */
  function Extent(xs: seq<Item>, gap: int, height: Id -> nat): int
    decreases |xs|
  {
    if |xs| == 0 then 0
    else Extent(xs[..|xs| - 1], gap, height) + height(xs[|xs| - 1].id) + gap
  }

  /** The offset `fixPosition` computes for `self` in `list`. */
  function StackOffset(list: seq<Item>, self: Item, base: BaseConfig, height: Id -> nat): int {
    base.offset + Extent(SameAnchor(Predecessors(list, self), self.config.position), base.gap, height)
  }

  /**
    The loop of `fixPosition`: start from the base offset and add height plus
    gap for every same-position item, stopping at `self`.
   */
  method FixPosition(list: seq<Item>, self: Item, base: BaseConfig, height: Id -> nat) returns (value: int)
    ensures value == StackOffset(list, self, base, height)
  {
    value := base.offset;
    ghost var pos := self.config.position;
    var i := 0;
    while i < |list| && list[i].id != self.id
      invariant 0 <= i <= |list|
      invariant forall j :: 0 <= j < i ==> list[j].id != self.id
      invariant value == base.offset + Extent(SameAnchor(list[..i], pos), base.gap, height)
    {
      ghost var seen := list[..i + 1];
      assert seen[..|seen| - 1] == list[..i];
      assert SameAnchor(seen, pos)
        == SameAnchor(list[..i], pos) + (if list[i].config.position == pos then [list[i]] else []);
      if list[i].config.position == self.config.position {
        value := value + height(list[i].id) + base.gap;
      }
      i := i + 1;
    }
    assert i == |list| ==> list[..i] == list;
    assert Predecessors(list, self) == list[..i];
  }

  /** An item appended to a list that does not hold it is found last. */
  lemma AppendedFoundLast(list: seq<Item>, x: Item)
    requires forall j :: 0 <= j < |list| ==> list[j].id != x.id
    ensures IndexOf(list + [x], x.id) == |list|
  {
    var longer := list + [x];
    assert forall j :: 0 <= j < |list| ==> longer[j] == list[j];
    assert longer[|list|] == x;
  }

  /** An item appended to a list that does not hold it is stacked past every same-position item of that list. */
  lemma AppendedOffset(list: seq<Item>, x: Item, base: BaseConfig, height: Id -> nat)
    requires forall j :: 0 <= j < |list| ==> list[j].id != x.id
    ensures StackOffset(list + [x], x, base, height) == base.offset + Extent(SameAnchor(list, x.config.position), base.gap, height)
  {
    var longer := list + [x];
    AppendedFoundLast(list, x);
    assert longer[..|list|] == list;
  }

  /** Appending an item after every other does not move an item already listed. */
  lemma AppendKeepsOffset(list: seq<Item>, self: Item, x: Item, base: BaseConfig, height: Id -> nat)
    requires 0 <= IndexOf(list, self.id)
    ensures StackOffset(list + [x], self, base, height) == StackOffset(list, self, base, height)
  {
    assert list[..|list|] + [x] + list[|list|..] == list + [x];
    InsertAfterKeepsOffset(list, self, |list|, x, base, height);
  }

  /** Filtering by position distributes over concatenation. */
  lemma {:induction false} SameAnchorConcat(a: seq<Item>, b: seq<Item>, pos: Position)
    ensures SameAnchor(a + b, pos) == SameAnchor(a, pos) + SameAnchor(b, pos)
    decreases |b|
  {
    if |b| == 0 {
      assert a + b == a;
    } else {
      var b' := b[..|b| - 1];
      assert (a + b)[..|a + b| - 1] == a + b';
      SameAnchorConcat(a, b', pos);
    }
  }

  lemma {:induction false} ExtentConcat(a: seq<Item>, b: seq<Item>, gap: int, height: Id -> nat)
    ensures Extent(a + b, gap, height) == Extent(a, gap, height) + Extent(b, gap, height)
    decreases |b|
  {
    if |b| == 0 {
      assert a + b == a;
    } else {
      var b' := b[..|b| - 1];
      assert (a + b)[..|a + b| - 1] == a + b';
      ExtentConcat(a, b', gap, height);
    }
  }

  lemma {:induction false} ExtentNonnegative(xs: seq<Item>, gap: int, height: Id -> nat)
    requires gap >= 0
    ensures Extent(xs, gap, height) >= 0
    decreases |xs|
  {
    if |xs| > 0 {
      ExtentNonnegative(xs[..|xs| - 1], gap, height);
    }
  }

  /** With a non-negative gap no item is placed closer to the edge than the base offset. */
  lemma OffsetAtLeastBase(list: seq<Item>, self: Item, base: BaseConfig, height: Id -> nat)
    requires base.gap >= 0
    ensures StackOffset(list, self, base, height) >= base.offset
  {
    ExtentNonnegative(SameAnchor(Predecessors(list, self), self.config.position), base.gap, height);
  }

  /**
    Among items with the same position, a later item sits at least one
    height-plus-gap of the earlier item further from the edge.
   */
  lemma LaterItemStacksFurther(list: seq<Item>, i: nat, j: nat, base: BaseConfig, height: Id -> nat)
    requires UniqueIds(list)
    requires i < j < |list|
    requires list[i].config.position == list[j].config.position
    requires base.gap >= 0
    ensures StackOffset(list, list[j], base, height)
              >= StackOffset(list, list[i], base, height) + height(list[i].id) + base.gap
  {
    var pos := list[j].config.position;
    assert IndexOf(list, list[i].id) == i;
    assert IndexOf(list, list[j].id) == j;
    assert Predecessors(list, list[j]) == list[..j];
    assert Predecessors(list, list[i]) == list[..i];
    var mid := list[i + 1..j];
    assert list[..j] == list[..i] + [list[i]] + mid;
    SameAnchorConcat(list[..i] + [list[i]], mid, pos);
    SameAnchorConcat(list[..i], [list[i]], pos);
    assert SameAnchor([list[i]], pos) == [list[i]] by {
      assert [list[i]][..0] == [];
    }
    var before := SameAnchor(list[..i], pos);
    ExtentConcat(before + [list[i]], SameAnchor(mid, pos), base.gap, height);
    ExtentConcat(before, [list[i]], base.gap, height);
    assert Extent([list[i]], base.gap, height) == height(list[i].id) + base.gap by {
      assert [list[i]][..0] == [];
    }
    ExtentNonnegative(SameAnchor(mid, pos), base.gap, height);
  }

  /** Two lists with the same identities and positions in the same order. */
  predicate SameSlots(a: seq<Item>, b: seq<Item>) {
    && |a| == |b|
    && forall i :: 0 <= i < |a| ==> a[i].id == b[i].id && a[i].config.position == b[i].config.position
  }

  /** The prefix as long as the sequence is the sequence. */
  lemma WholePrefix(xs: seq<Item>)
    ensures xs[..|xs|] == xs
  {
  }

  /** Appending items with the same identity and position gives lists with the same slots. */
  lemma SameSlotsAppend(list: seq<Item>, a: Item, b: Item)
    requires a.id == b.id && a.config.position == b.config.position
    ensures SameSlots(list + [a], list + [b])
  {
    assert forall j :: 0 <= j < |list| ==> (list + [a])[j] == (list + [b])[j];
  }

  /** A prefix one longer is the prefix and the next element. */
  lemma TakeOneMore(xs: seq<Item>, i: nat)
    requires i < |xs|
    ensures xs[..i + 1] == xs[..i] + [xs[i]]
  {
  }

  /** Replacing a prefix by one with the same slots keeps the slots. */
  lemma SameSlotsSplice(a: seq<Item>, b: seq<Item>, i: nat)
    requires SameSlots(a, b)
    requires i <= |b|
    ensures SameSlots(a[..i] + b[i..], b)
  {
    var c := a[..i] + b[i..];
    assert forall j :: 0 <= j < |b| ==> c[j] == if j < i then a[j] else b[j];
  }

  /** Adding one item at the end adds its height and gap exactly when it has the position. */
  lemma AnchorExtentStep(xs: seq<Item>, pos: Position, gap: int, height: Id -> nat)
    requires |xs| > 0
    ensures Extent(SameAnchor(xs, pos), gap, height)
              == Extent(SameAnchor(xs[..|xs| - 1], pos), gap, height)
                 + (if xs[|xs| - 1].config.position == pos then height(xs[|xs| - 1].id) + gap else 0)
  {
    var init := SameAnchor(xs[..|xs| - 1], pos);
    var last := xs[|xs| - 1];
    if last.config.position == pos {
      assert SameAnchor(xs, pos) == init + [last];
      assert (init + [last])[..|init|] == init;
    }
  }

  lemma {:induction false} SameSlotsSameExtent(a: seq<Item>, b: seq<Item>, pos: Position, gap: int, height: Id -> nat)
    requires SameSlots(a, b)
    ensures Extent(SameAnchor(a, pos), gap, height) == Extent(SameAnchor(b, pos), gap, height)
    decreases |a|
  {
    if |a| > 0 {
      SameSlotsSameExtent(a[..|a| - 1], b[..|b| - 1], pos, gap, height);
      AnchorExtentStep(a, pos, gap, height);
      AnchorExtentStep(b, pos, gap, height);
    }
  }

  /**
    The offset depends only on the identities and positions in the list and
    of the item, not on the styles written so far.
   */
  lemma SameSlotsSameOffset(a: seq<Item>, b: seq<Item>, self: Item, other: Item, base: BaseConfig, height: Id -> nat)
    requires SameSlots(a, b)
    requires self.id == other.id && self.config.position == other.config.position
    ensures StackOffset(a, self, base, height) == StackOffset(b, other, base, height)
  {
    var k := IndexOf(a, self.id);
    assert IndexOf(b, other.id) == k;
    SameSlotsSameExtent(Predecessors(a, self), Predecessors(b, other), self.config.position, base.gap, height);
  }

  /** The insertion copies `list` to the left of `k` and shifts the rest one place right. */
  lemma InsertShape(list: seq<Item>, k: nat, x: Item)
    requires k <= |list|
    ensures var longer := list[..k] + [x] + list[k..];
            && |longer| == |list| + 1
            && longer[k] == x
            && (forall j :: 0 <= j < k ==> longer[j] == list[j])
            && (forall j :: k < j < |longer| ==> longer[j] == list[j - 1])
  {
  }

  /** Inserting at `k` an item other than `id` keeps `id` absent when it was absent. */
  lemma IndexOfInsertMissing(list: seq<Item>, id: Id, k: nat, x: Item)
    requires k <= |list|
    requires IndexOf(list, id) == -1
    requires x.id != id
    ensures IndexOf(list[..k] + [x] + list[k..], id) == -1
  {
    var longer := list[..k] + [x] + list[k..];
    InsertShape(list, k, x);
    forall j | 0 <= j < |longer| ensures longer[j].id != id {
      if j < k {
        assert longer[j] == list[j];
      } else if j > k {
        assert longer[j] == list[j - 1];
      }
    }
  }

  /** Inserting at or before the first occurrence of `id` shifts it one place right. */
  lemma IndexOfInsertBefore(list: seq<Item>, id: Id, k: nat, x: Item)
    requires k <= IndexOf(list, id)
    requires x.id != id
    ensures IndexOf(list[..k] + [x] + list[k..], id) == IndexOf(list, id) + 1
  {
    var longer := list[..k] + [x] + list[k..];
    var n := IndexOf(list, id);
    InsertShape(list, k, x);
    assert longer[n + 1] == list[n];
    forall j | 0 <= j < n + 1 ensures longer[j].id != id {
      if j < k {
        assert longer[j] == list[j];
      } else if j > k {
        assert longer[j] == list[j - 1];
      }
    }
  }

  /** Inserting after the first occurrence of `id` leaves its index alone. */
  lemma IndexOfInsertAfter(list: seq<Item>, id: Id, k: nat, x: Item)
    requires k <= |list|
    requires 0 <= IndexOf(list, id) < k
    ensures IndexOf(list[..k] + [x] + list[k..], id) == IndexOf(list, id)
  {
    var longer := list[..k] + [x] + list[k..];
    var n := IndexOf(list, id);
    InsertShape(list, k, x);
    assert longer[n] == list[n];
    forall j | 0 <= j < n ensures longer[j].id != id {
      assert longer[j] == list[j];
    }
  }

  /** An insertion after `self` does not change where the loop of `fixPosition` stops. */
  lemma PredecessorsInsertAfter(list: seq<Item>, self: Item, k: nat, x: Item)
    requires k <= |list|
    requires 0 <= IndexOf(list, self.id) < k
    ensures Predecessors(list[..k] + [x] + list[k..], self) == Predecessors(list, self)
  {
    var longer := list[..k] + [x] + list[k..];
    var n := IndexOf(list, self.id);
    IndexOfInsertAfter(list, self.id, k, x);
    InsertShape(list, k, x);
    assert longer[..n] == list[..n] by {
      forall j | 0 <= j < n ensures longer[..n][j] == list[..n][j] {
        assert longer[j] == list[j];
      }
    }
  }

  /** An insertion at or before the stopping point lands among the items the loop visits. */
  lemma PredecessorsInsertBefore(list: seq<Item>, self: Item, k: nat, x: Item)
    requires k <= |list|
    requires x.id != self.id
    requires !(0 <= IndexOf(list, self.id) < k)
    ensures |Predecessors(list, self)| >= k
    ensures Predecessors(list[..k] + [x] + list[k..], self)
              == Predecessors(list, self)[..k] + [x] + Predecessors(list, self)[k..]
  {
    var longer := list[..k] + [x] + list[k..];
    var n := IndexOf(list, self.id);
    var stop := if n < 0 then |list| else n;
    if n < 0 {
      IndexOfInsertMissing(list, self.id, k, x);
      assert longer[..stop + 1] == longer;
    } else {
      IndexOfInsertBefore(list, self.id, k, x);
    }
    assert Predecessors(list, self) == list[..stop];
    assert Predecessors(longer, self) == longer[..stop + 1];
    PrefixOfInsert(list, k, x, stop);
  }

  lemma PrefixOfInsert(list: seq<Item>, k: nat, x: Item, stop: nat)
    requires k <= stop <= |list|
    ensures (list[..k] + [x] + list[k..])[..stop + 1] == list[..stop][..k] + [x] + list[..stop][k..]
  {
    var longer := list[..k] + [x] + list[k..];
    var p := list[..stop];
    InsertShape(list, k, x);
    assert p[..k] == list[..k];
    forall j | 0 <= j < stop + 1 ensures longer[..stop + 1][j] == (p[..k] + [x] + p[k..])[j] {
      if j < k {
        assert longer[j] == list[j];
      } else if j > k {
        assert longer[j] == list[j - 1];
      }
    }
  }

  /** Filtering by position drops an item of another position wherever it stands. */
  lemma SameAnchorSkipsOther(a: seq<Item>, x: Item, b: seq<Item>, pos: Position)
    requires x.config.position != pos
    ensures SameAnchor(a + [x] + b, pos) == SameAnchor(a + b, pos)
  {
    SameAnchorConcat(a + [x], b, pos);
    SameAnchorConcat(a, [x], pos);
    SameAnchorConcat(a, b, pos);
    assert SameAnchor([x], pos) == [] by {
      assert [x][..0] == [];
    }
    assert SameAnchor(a, pos) + [] == SameAnchor(a, pos);
  }

  /** Inserting an item after `self` leaves the offset of `self` unchanged. */
  lemma InsertAfterKeepsOffset(list: seq<Item>, self: Item, k: nat, x: Item, base: BaseConfig, height: Id -> nat)
    requires k <= |list|
    requires 0 <= IndexOf(list, self.id) < k
    ensures StackOffset(list[..k] + [x] + list[k..], self, base, height) == StackOffset(list, self, base, height)
  {
    PredecessorsInsertAfter(list, self, k, x);
  }

  /** Inserting an item that has a different position leaves the offset of `self` unchanged. */
  lemma InsertOtherAnchorKeepsOffset(list: seq<Item>, self: Item, k: nat, x: Item, base: BaseConfig, height: Id -> nat)
    requires k <= |list|
    requires x.id != self.id
    requires x.config.position != self.config.position
    ensures StackOffset(list[..k] + [x] + list[k..], self, base, height) == StackOffset(list, self, base, height)
  {
    if 0 <= IndexOf(list, self.id) < k {
      PredecessorsInsertAfter(list, self, k, x);
    } else {
      PredecessorsInsertBefore(list, self, k, x);
      var p := Predecessors(list, self);
      assert p == p[..k] + p[k..];
      SameAnchorSkipsOther(p[..k], x, p[k..], self.config.position);
    }
  }

  /** Putting a removed item back where it was restores the list. */
  lemma RemoveThenInsert(list: seq<Item>, k: nat)
    requires k < |list|
    ensures var rest := list[..k] + list[k + 1..];
            rest[..k] + [list[k]] + rest[k..] == list
  {
    var rest := list[..k] + list[k + 1..];
    assert rest[..k] == list[..k];
    assert rest[k..] == list[k + 1..];
    assert list[..k] + [list[k]] + list[k + 1..] == list;
  }

  /** Removing an item that comes after `self` leaves the offset of `self` unchanged. */
  lemma RemoveAfterKeepsOffset(list: seq<Item>, self: Item, k: nat, base: BaseConfig, height: Id -> nat)
    requires k < |list|
    requires 0 <= IndexOf(list, self.id) < k
    ensures StackOffset(list[..k] + list[k + 1..], self, base, height) == StackOffset(list, self, base, height)
  {
    var rest := list[..k] + list[k + 1..];
    var n := IndexOf(list, self.id);
    RemoveThenInsert(list, k);
    forall j | 0 <= j <= n ensures rest[j] == list[j] {
      assert rest[j] == rest[..k][j];
    }
    assert IndexOf(rest, self.id) == n;
    InsertAfterKeepsOffset(rest, self, k, list[k], base, height);
  }

  /** Removing an item that has a different position leaves the offset of `self` unchanged. */
  lemma RemoveOtherAnchorKeepsOffset(list: seq<Item>, self: Item, k: nat, base: BaseConfig, height: Id -> nat)
    requires k < |list|
    requires list[k].id != self.id
    requires list[k].config.position != self.config.position
    ensures StackOffset(list[..k] + list[k + 1..], self, base, height) == StackOffset(list, self, base, height)
  {
    var rest := list[..k] + list[k + 1..];
    RemoveThenInsert(list, k);
    InsertOtherAnchorKeepsOffset(rest, self, k, list[k], base, height);
  }

  /** `s.split('-')[0]`: the part of a string before its first dash. */
  function BeforeDash(s: string): (r: string)
    ensures r <= s
    ensures '-' !in r
    ensures |r| < |s| ==> s[|r|] == '-'
  {
    if |s| == 0 || s[0] == '-' then "" else [s[0]] + BeforeDash(s[1..])
  }

  /** The dash at index `n` is the first one, so the part before it is `s[..n]`. */
  lemma BeforeFirstDash(s: string, n: nat)
    requires n < |s| && s[n] == '-'
    requires forall j :: 0 <= j < n ==> s[j] != '-'
    ensures BeforeDash(s) == s[..n]
  {
  }

  lemma NoDash(s: string)
    requires forall j :: 0 <= j < |s| ==> s[j] != '-'
    ensures BeforeDash(s) == s
  {
  }

  /** The vertical part of a position, as `fixPosition` extracts it. */
  function YAlign(p: Position): string {
    BeforeDash(PositionName(p))
  }

  predicate TopAnchored(p: Position) {
    p == Top || p == TopLeft || p == TopRight
  }

  /** Every one of the six positions starts with exactly `top` or `bottom` before its dash. */
  lemma YAlignIsVerticalEdge(p: Position)
    ensures YAlign(p) == (if TopAnchored(p) then "top" else "bottom")
  {
    if TopAnchored(p) {
      YAlignTop(p);
    } else {
      YAlignBottom(p);
    }
  }

  lemma YAlignTop(p: Position)
    requires TopAnchored(p)
    ensures YAlign(p) == "top"
  {
    var name := PositionName(p);
    if p == Top {
      NoDash(name);
    } else {
      BeforeFirstDash(name, 3);
      assert name[..3] == "top";
    }
  }

  lemma YAlignBottom(p: Position)
    requires !TopAnchored(p)
    ensures YAlign(p) == "bottom"
  {
    var name := PositionName(p);
    if p == Bottom {
      NoDash(name);
    } else {
      BeforeFirstDash(name, 6);
      assert name[..6] == "bottom";
    }
  }

  /** The edge property that holds an item's offset. */
  function Edge(style: Style, p: Position): Option<int> {
    if TopAnchored(p) then style.top else style.bottom
  }

  /** The style a placement never writes for position `p`. */
  function OtherEdge(style: Style, p: Position): Option<int> {
    if TopAnchored(p) then style.bottom else style.top
  }

  /** The tail of `fixPosition`: write the offset to `top` or `bottom` according to the position. */
  function Place(style: Style, p: Position, v: int): Style {
    var y := YAlign(p);
    if y == "top" then style.(top := Some(v))
    else if y == "bottom" then style.(bottom := Some(v))
    else style
  }

  /** Placement sets the anchor's own edge to the offset and leaves the other edge as it was. */
  lemma PlaceWritesAnchorEdge(style: Style, p: Position, v: int)
    ensures Edge(Place(style, p, v), p) == Some(v)
    ensures OtherEdge(Place(style, p, v), p) == OtherEdge(style, p)
  {
    YAlignIsVerticalEdge(p);
  }

  /** An element that only its own position ever placed has exactly one edge set. */
  predicate Settled(it: Item) {
    Edge(it.style, it.config.position).Some? && OtherEdge(it.style, it.config.position).None?
  }
}

=== FILE: wrappers.dfy ===
/** Optional values: an absent key of a JavaScript object, or a key left out of a partial configuration. */
module Wrappers {

  datatype Option<+T> = None | Some(value: T)
}
